=== FILE: README.md ===
# python-add-module-as-layer, modelled in Dafny

This project models the decision logic of the AWS Lambda function
`lambda_handler` in `python-add-module-as-layer.py`. The function adds a PyPI
module to AWS Lambda as a new layer version. It:

1. reads `ModuleName` (required) and `CustomLayerName` (optional) from the event;
2. runs `pip download <module> --no-deps` and checks pip's exit status;
3. takes the first file of the download directory whose lowercased name ends in `.whl`;
4. reads the module version from the wheel file name, as the second `-`-separated field (the file name convention of PEP 427);
5. copies every entry of the wheel into a new zip archive under `/python/lib/python<major>.<minor>/site-packages`, unchanged;
6. names the zip `<module>_layer_ver_<version>_<timestamp>.zip`, and the layer either after the custom name or `<module>_<version without dots>_py<major><minor>`;
7. publishes the layer, and answers 200 on success, 404 `ResourceNotFoundException` when the module name, pip or the wheel is missing, and 500 `ServiceException` when publishing fails.

Modules, one per part of the handler:

- `Text` (`text.dfy`): the Python string operations the handler relies on. These are `lower`, `endswith`, `split`, `replace(c, "")` and `str(n)`. Each has a partner: `Join` for `Split`, `ParseDigits` for `NatToString`, concatenation for `RemoveChar`.
- `Wheel` (`wheel.dfy`): the directory scan as a loop (`PickWheel`) proved against `FirstWheel`, and the version field (`ModuleVersion`) proved against a PEP 427 file-name builder.
- `Layout` (`layout.dfy`): the site-packages prefix and its parser. It also holds the copying loop (`Repackage`), which writes into an `OutArchive` object one entry at a time, proved against the function `Rerooted`, and the round trip back through `Unrooted`.
- `Naming` (`naming.dfy`): the zip file name and the layer name.
- `Handler` (`handler.dfy`): the whole invocation. `HandlerSpec` is the specification function and `LambdaHandler` is the sequential method proved equal to it. An invocation yields the name of the zip file it wrote (if any), the publish call it made (if any), and either the response dictionary or the exception that escaped.

Inputs from the outside world are parameters (`Handler.Environment`):
- pip's exit status and standard error;
- the download directory listing;
- the entries of the opened wheel;
- the interpreter's major and minor version;
- the timestamp string;
- the publish call's outcome.

Two behaviours of the code are modelled as written:

- A wheel file name without a hyphen makes `SplitFileName[1]` raise `IndexError`. `ModuleVersion` therefore requires a hyphen, and the handler's outcome in that case is `Raised("IndexError")`.
- Reading a wheel entry goes by name (`InZipFile.read(CurrentFileName)`). An archive indexes its members by name, and a later member of the same name shadows an earlier one. So each copied entry holds the bytes of the LAST entry with its name. Bytes are copied unchanged whenever names are distinct (`Layout.RerootedBytesIdentical`). `Layout.RepeatedNameTakesLastBytes` shows two same-named entries both ending up with the second one's bytes.

What the code does not do, and the model therefore does not either:
- It resolves no wheel itself: `pip download` chooses the file.
- It drops no metadata directory: `.dist-info` entries are re-rooted like all the others.
- It reports no error kinds beyond 404, 500 and an escaping `IndexError`.

## Model

| member | source | states |
|---|---|---|
| Text.Split | python-add-module-as-layer.py:144 | `split('-')` yields at least one field, at least two exactly when the separator occurs, no field contains the separator, and joining the fields gives the string back |
| Text.SplitJoin | python-add-module-as-layer.py:144 | splitting undoes joining for separator-free fields (the other half of the round trip) |
| Text.RemoveChar | python-add-module-as-layer.py:205 | `replace(".", "")` leaves no dot, never lengthens, and leaves a dot-free string unchanged |
| Text.RemoveCharAppend | python-add-module-as-layer.py:205 | dot removal distributes over concatenation, so it works character by character and keeps order |
| Text.RemoveCharKeepsOthers | python-add-module-as-layer.py:205 | every character other than the dot occurs as often after removal as before |
| Text.NatToString | python-add-module-as-layer.py:150-151 | `str()` of a version number is a non-empty string of decimal digits with no leading zero: it starts with '0' only for zero, and then it is the single character "0" |
| Text.ParseNatToString | python-add-module-as-layer.py:150-151 | parsing the decimal rendering gives the number back |
| Text.NatToStringInjective | python-add-module-as-layer.py:150-151 | distinct version numbers render differently |
| Wheel.WheelNameSuffix | python-add-module-as-layer.py:121 | the lowercase `.whl` test holds exactly when the last four characters are a dot and w, h, l in either case |
| Wheel.FirstWheelIsFirst | python-add-module-as-layer.py:119-128 | FirstWheel finds nothing exactly when no entry is a wheel, and otherwise returns a listed wheel before which no entry is a wheel |
| Wheel.PickWheel | python-add-module-as-layer.py:119-128 | the scan leaves the name empty exactly when no entry qualifies, and otherwise returns the first qualifying entry of the listing |
| Wheel.ModuleVersion | python-add-module-as-layer.py:144-146 | the version is field 1 of `split('-')`; a hyphen is required (without one the code raises IndexError); the result holds no hyphen |
| Wheel.VersionOfWheelFileName | python-add-module-as-layer.py:139-146 | for every PEP 427 file name with hyphen-free components, with or without a build tag, the name passes the wheel test and the version read back is the version it was built from |
| Layout.VersionNoDot | python-add-module-as-layer.py:149-151 | the dotless runtime version is the dotted one with its dot removed, and consists of decimal digits only |
| Layout.SitePackagesPrefixRoundTrip | python-add-module-as-layer.py:149-158 | the prefix is "/python/lib/python", major "." minor, "/site-packages", and parsing it gives (major, minor) back |
| Layout.SitePackagesPrefixInjective | python-add-module-as-layer.py:149-158 | two runtime versions never share a site-packages prefix |
| Layout.LastIndexOf | python-add-module-as-layer.py:179 | the lookup by name finds the last entry with that name, or reports that no entry has it |
| Layout.ReadByName | python-add-module-as-layer.py:179 | reading by name returns the bytes of an entry of that name after which no entry has the same name |
| Layout.RerootedNames | python-add-module-as-layer.py:177-183 | the output has exactly one entry per input entry, in input order, entry i named prefix + "/" + input name i |
| Layout.RerootedBytes | python-add-module-as-layer.py:177-183 | output entry i holds the bytes of the last input entry named like input entry i |
| Layout.RerootedEntryAt | python-add-module-as-layer.py:177-183 | with distinct names, output entry i is input entry i under prefix + "/" with the same bytes |
| Layout.RerootedBytesIdentical | python-add-module-as-layer.py:177-183 | with distinct names every output entry is the input entry, byte for byte, under the prefixed name |
| Layout.RerootedNamesInjective | python-add-module-as-layer.py:177-183 | two output names coincide exactly when the input names do, so nothing is merged or duplicated |
| Layout.RerootedRoundTrip | python-add-module-as-layer.py:177-183 | stripping prefix + "/" from the output gives back the whole input archive (distinct names) |
| Layout.RepeatedNameTakesLastBytes | python-add-module-as-layer.py:177-183 | two entries named "a" with bytes [1] and [2] are both copied with bytes [2] |
| Layout.OutArchive.constructor | python-add-module-as-layer.py:176 | a newly opened output archive is empty |
| Layout.OutArchive.WriteStr | python-add-module-as-layer.py:183 | writing appends exactly one entry with the given name and bytes |
| Layout.Repackage | python-add-module-as-layer.py:177-183 | the loop appends Rerooted(archive, prefix) to the output archive and changes nothing else in it |
| Layout.RepackageWheel | python-add-module-as-layer.py:175-192 | the archive written from a fresh output archive is exactly Rerooted(archive, prefix) |
| Naming.ZipFileNameDeterminesVersion | python-add-module-as-layer.py:161-163 | for one module and timestamp, different versions never give the same zip file name |
| Naming.LayerName | python-add-module-as-layer.py:201-207 | a non-empty custom name is used verbatim; otherwise the name starts with module + "_", continues with exactly the version with every dot removed, ends with "_py" + major + minor, and has no dot after the module name |
| Naming.DefaultLayerNameDeterminesDotlessVersion | python-add-module-as-layer.py:203-205 | for one module and runtime, two versions give the same default layer name exactly when they agree once their dots are removed |
| Naming.DottedVersionsCollide | python-add-module-as-layer.py:203-205 | versions "1.10" and "11.0" of a module get the same default layer name |
| Text.Lower | python-add-module-as-layer.py:121 | defined as `lower()`: each character lowered, the length unchanged (ASCII letters only) |
| Text.EndsWith | python-add-module-as-layer.py:121 | defined as `endswith(suffix)`: the last characters are exactly the suffix |
| Wheel.IsWheelName | python-add-module-as-layer.py:121 | defined as the test `file.lower().endswith(".whl")`; characterised by Wheel.WheelNameSuffix |
| Wheel.FirstWheel | python-add-module-as-layer.py:119-125 | defined as the first entry of the listing passing the wheel test, or none; characterised by Wheel.FirstWheelIsFirst |
| Layout.VersionDot | python-add-module-as-layer.py:150 | defined as `str(major) + '.' + str(minor)` |
| Layout.SitePackagesPrefix | python-add-module-as-layer.py:155-158 | defined as "/python/lib/python" + VersionDot + "/site-packages"; characterised by Layout.SitePackagesPrefixRoundTrip |
| Layout.Rerooted | python-add-module-as-layer.py:177-183 | defined as the entry list the copying loop writes; characterised by Layout.RerootedNames, Layout.RerootedBytes and Layout.RerootedRoundTrip |
| Naming.ZipFileName | python-add-module-as-layer.py:161-163 | defined as module + "_layer_ver_" + version + "_" + timestamp + ".zip"; characterised by Naming.ZipFileNameDeterminesVersion |
| Handler.CustomLayerNameOf | python-add-module-as-layer.py:54-60 | defined as the event's CustomLayerName, or "" when the key is missing |
| Handler.MissingModuleNamePayload | python-add-module-as-layer.py:51 | defined as the message, the raw "\nError: " and str() of the KeyError, "'ModuleName'" |
| Handler.PipFailurePayload | python-add-module-as-layer.py:115 | defined as the message, the module name, the raw "\nError:" and str() of pip's stderr |
| Handler.NoWheelPayload | python-add-module-as-layer.py:134 | defined as the message followed by the module name |
| Handler.PublishFailurePayload | python-add-module-as-layer.py:218 | defined as the message followed by str() of the publish call's exception |
| Handler.SuccessPayload | python-add-module-as-layer.py:229 | defined as the message, with the source's spelling "succesfully", followed by the layer name |
| Handler.NotFound | python-add-module-as-layer.py:48-52 | defined as the returned dictionary with StatusCode 404, FunctionError ResourceNotFoundException and the given payload, the shape shared by lines 112-116 and 131-135 |
| Handler.PublishRequestFor | python-add-module-as-layer.py:201-212 | defined as the arguments of the publish call: the layer name, the fixed description, the re-rooted entries, the single runtime "python<major>.<minor>" and an empty licence |
| Handler.PublishStep | python-add-module-as-layer.py:161-230 | once a wheel with a version field is in hand, the zip file named after its version is written and the publish call is always made with the request built from it; the status is 200 (no FunctionError) exactly when publishing succeeds and 500 exactly when it fails |
| Handler.HandlerSpec | python-add-module-as-layer.py:32-230 | the zip file is written and publishing is attempted exactly when the module name is given, pip succeeded and a wheel with a version field was found; IndexError escapes exactly when that wheel has no hyphen; the status is 200, 404 or 500; 200 exactly on successful publishing, 500 exactly on failed publishing; every 404 is ResourceNotFoundException; only 200 omits FunctionError |
| Handler.LambdaHandler | python-add-module-as-layer.py:32-230 | the step-by-step handler, with its scan loop and copying loop, produces the run HandlerSpec describes |
| Handler.PublishLayer | python-add-module-as-layer.py:144-230 | the naming, copying and publishing steps produce the run PublishStep describes |
| Handler.MissingModuleName | python-add-module-as-layer.py:42-52 | without ModuleName: 404 ResourceNotFoundException with the KeyError text, no zip file is written and nothing is published |
| Handler.PipFailure | python-add-module-as-layer.py:102-116 | a non-zero pip status gives 404 ResourceNotFoundException with pip's error text; no zip file is written and nothing is published |
| Handler.NoWheelDownloaded | python-add-module-as-layer.py:118-135 | with no `.whl` entry in the listing: 404 ResourceNotFoundException, and nothing is published |
| Handler.PublishStepLayer | python-add-module-as-layer.py:161-212 | the layer built from a wheel: the zip file named with its version, one entry per wheel entry under the site-packages prefix (bytes unchanged for distinct names), the runtime "python<major>.<minor>", and the custom name when given |
| Handler.PublishedLayer | python-add-module-as-layer.py:119-212 | the published layer comes from the first wheel of the listing. The zip file written in the download directory is named with that wheel's version, and the layer holds one entry per wheel entry, in order, each under the site-packages prefix. Bytes are unchanged for distinct names. The runtime is "python<major>.<minor>", and a non-empty custom name is the layer name |
| Handler.PublishFailure | python-add-module-as-layer.py:209-219 | a failing publish call gives 500 ServiceException carrying the exception's text |
| Handler.SuccessNamesLayer | python-add-module-as-layer.py:227-230 | a successful publish gives 200, with a payload that ends in the published layer's name |

## Left out

- Running pip (line 103): pip is a separate program, so it enters only as its exit status, its error text and the directory it leaves behind. No wheel-tag resolution is modelled because the handler performs none.
- Filesystem work is input/output plumbing and is not modelled: creating and emptying the temporary directories, removing the wheel, the cache and the zip, and reading the zip back (lines 72-91, 186-199, 224-225).
- Failures of that filesystem work are not modelled. Examples are a failed `mkdir` or `remove`, and a corrupt wheel that zipfile refuses to open. Only the `IndexError` of the version split is modelled as an escaping exception.
- zipfile internals are not modelled: compression, ZipInfo metadata (dates, attributes) and the on-disk format. Archive entries are (name, bytes) pairs, and the published content is the list of entries, not the zip file's bytes. The zip file's name is recorded with the run; the publish call does not receive it.
- The boto3 client and the `publish_layer_version` call (lines 210-212) are a network service. Their outcome is an input: success, or the text of the exception.
- `datetime.now().isoformat(timespec='seconds')` (line 162) is a clock read. It is passed in as the timestamp string, and its format is not modelled.
- `sys.version_info` (lines 150-151) is an environment read. It is passed in as the major and minor version.
- Logging and `print` calls have no effect on the result.
- The input wheel is modelled as a value that never changes. The code renames each input ZipInfo in place (line 181), and `writestr` (line 183) overwrites its offset and size. This does not affect the output: each read looks its entry up by the original name, and the last entry of a name is renamed only after its own read.
- `os.listdir` returns names in an order the filesystem chooses. The model takes the listing order as given.
- The event is modelled as a map from strings to strings. A non-string `ModuleName` or `CustomLayerName`, which makes the code raise `TypeError` when concatenating, is not modelled.
- Text.Lower: only ASCII letters are lowered. Python lowers all of Unicode (sometimes changing the length), but no non-ASCII character lowers to one of `.whl`, so the wheel test is the same for the names pip writes.

=== FILE: handler.dfy ===
/**
 * The Lambda handler that adds a PyPI module as a Lambda layer: the order of
 * its steps, what each failure returns, and what it asks the Lambda service
 * to publish. Everything the handler learns from outside (pip's exit status,
 * the download directory, the wheel's entries, the runtime version, the
 * clock and the publish call's outcome) is an input.
 */
module Handler {
  import opened Wrappers
  import opened Text
  import opened Wheel
  import opened Layout
  import opened Naming

  /** The dictionary the handler returns; `functionError` is absent on success. */
  datatype Response = Response(statusCode: int, functionError: Option<string>, payload: string)

  /** Either the handler returns a response, or an exception escapes it. */
  datatype Outcome = Returned(response: Response) | Raised(exception: string)

  /** The arguments of the `publish_layer_version` call; `content` stands for the zip archive's entries. */
  datatype PublishRequest = PublishRequest(
    layerName: string,
    description: string,
    content: seq<Entry>,
    compatibleRuntimes: seq<string>,
    licenseInfo: string)

  /**
   * One invocation: the name of the zip file written in the download
   * directory, if one was written, the publish call made, if any, and how the
   * handler ended.
   */
  datatype Run = Run(zipFileName: Option<string>, publishCall: Option<PublishRequest>, outcome: Outcome)

  /** What the handler observes of the world during one invocation. */
  datatype Environment = Environment(
    pipReturnCode: int,          // exit status of `pip download`
    pipStderr: string,           // str() of pip's captured standard error
    listing: seq<string>,        // the download directory, in listing order
    wheelEntries: seq<Entry>,    // the entries of the wheel file the handler opens
    major: nat,                  // the interpreter's major version
    minor: nat,                  // the interpreter's minor version
    timestamp: string,           // the local time in ISO format, to the second
    publishError: Option<string>) // str() of the exception the publish call raised, if any

  const NotFoundError: string := "ResourceNotFoundException"
  const ServiceError: string := "ServiceException"
  const LayerDescription: string := "Layer generated by Lambda function python-add-module-as-layer"

  /** The payload when the event has no ModuleName: the message and the KeyError's text. */
  function MissingModuleNamePayload(): string {
    "No argument for ModuleName was provided in the context name: " + "\\nError: " + "'ModuleName'"
  }

  function PipFailurePayload(moduleName: string, pipStderr: string): string {
    "pip was not able to find a module for " + moduleName + "\\nError:" + pipStderr
  }

  function NoWheelPayload(moduleName: string): string {
    "pip was not able to download a wheel file for " + moduleName
  }

  function PublishFailurePayload(error: string): string {
    "There was a problem when calling the Python boto3 publish_layer_version function: " + error
  }

  function SuccessPayload(layerName: string): string {
    "New layer was succesfully created with the name " + layerName
  }

  function NotFound(payload: string): Outcome {
    Returned(Response(404, Some(NotFoundError), payload))
  }

  function CustomLayerNameOf(event: map<string, string>): string {
    if "CustomLayerName" in event then event["CustomLayerName"] else ""
  }

  /** The handler gets as far as the publish call: a module name, pip succeeded, a wheel whose name has a version field. */
  predicate ReachesPublish(event: map<string, string>, env: Environment) {
    "ModuleName" in event && env.pipReturnCode == 0 &&
    FirstWheel(env.listing).Some? && '-' in FirstWheel(env.listing).value
  }

  /** The publish request the handler builds for a module name and the wheel it picked. */
  function PublishRequestFor(moduleName: string, customLayerName: string, wheel: string, env: Environment): PublishRequest
    requires '-' in wheel
  {
    var version := ModuleVersion(wheel);
    var prefix := SitePackagesPrefix(env.major, env.minor);
    PublishRequest(
      LayerName(moduleName, version, env.major, env.minor, customLayerName),
      LayerDescription,
      Rerooted(env.wheelEntries, prefix),
      ["python" + VersionDot(env.major, env.minor)],
      "")
  }

  /** The last step: the layer is built and published, and the outcome of the publish call decides the response. */
  function PublishStep(moduleName: string, customLayerName: string, wheel: string, env: Environment): (r: Run)
    requires '-' in wheel
    ensures r.zipFileName == Some(ZipFileName(moduleName, ModuleVersion(wheel), env.timestamp))
    ensures r.publishCall == Some(PublishRequestFor(moduleName, customLayerName, wheel, env))
    ensures r.outcome.Returned?
    ensures r.outcome.response.statusCode == 200 <==> env.publishError.None?
    ensures r.outcome.response.statusCode == 500 <==> env.publishError.Some?
    ensures r.outcome.response.functionError.None? <==> env.publishError.None?
  {
    var zipFileName := ZipFileName(moduleName, ModuleVersion(wheel), env.timestamp);
    var call := PublishRequestFor(moduleName, customLayerName, wheel, env);
    match env.publishError
    case Some(e) =>
      Run(Some(zipFileName), Some(call), Returned(Response(500, Some(ServiceError), PublishFailurePayload(e))))
    case None =>
      Run(Some(zipFileName), Some(call), Returned(Response(200, None, SuccessPayload(call.layerName))))
  }

  /** What one invocation of the handler does, step by step. */
  function HandlerSpec(event: map<string, string>, env: Environment): (r: Run)
    ensures r.publishCall.Some? <==> ReachesPublish(event, env)
    ensures r.zipFileName.Some? <==> ReachesPublish(event, env)
    ensures r.outcome.Raised? <==>
      "ModuleName" in event && env.pipReturnCode == 0 && FirstWheel(env.listing).Some? && '-' !in FirstWheel(env.listing).value
    ensures r.outcome.Returned? ==> r.outcome.response.statusCode in {200, 404, 500}
    ensures r.outcome.Returned? ==> (r.outcome.response.functionError.None? <==> r.outcome.response.statusCode == 200)
    ensures r.outcome.Returned? && r.outcome.response.statusCode == 200 <==> ReachesPublish(event, env) && env.publishError.None?
    ensures r.outcome.Returned? && r.outcome.response.statusCode == 500 <==> ReachesPublish(event, env) && env.publishError.Some?
    ensures r.outcome.Returned? && r.outcome.response.statusCode == 404 ==> r.outcome.response.functionError == Some(NotFoundError)
  {
    if "ModuleName" !in event then
      Run(None, None, NotFound(MissingModuleNamePayload()))
    else
      var moduleName := event["ModuleName"];
      var customLayerName := CustomLayerNameOf(event);
      if env.pipReturnCode != 0 then
        Run(None, None, NotFound(PipFailurePayload(moduleName, env.pipStderr)))
      else
        match FirstWheel(env.listing)
        case None =>
          Run(None, None, NotFound(NoWheelPayload(moduleName)))
        case Some(wheel) =>
          if '-' !in wheel then
            Run(None, None, Raised("IndexError"))
          else
            PublishStep(moduleName, customLayerName, wheel, env)
  }

  /** The handler itself: the same steps, with the directory scan and the copying loop as loops. */
  method LambdaHandler(event: map<string, string>, env: Environment) returns (run: Run)
    ensures run == HandlerSpec(event, env)
  {
    if "ModuleName" !in event {
      return Run(None, None, NotFound(MissingModuleNamePayload()));
    }
    var moduleName := event["ModuleName"];
    var customLayerName := "";
    if "CustomLayerName" in event {
      customLayerName := event["CustomLayerName"];
    }
    if env.pipReturnCode != 0 {
      return Run(None, None, NotFound(PipFailurePayload(moduleName, env.pipStderr)));
    }
    var wheelFileName := PickWheel(env.listing);
    if wheelFileName == "" {
      return Run(None, None, NotFound(NoWheelPayload(moduleName)));
    }
    assert FirstWheel(env.listing) == Some(wheelFileName);
    if '-' !in wheelFileName {
      return Run(None, None, Raised("IndexError"));
    }
    run := PublishLayer(moduleName, customLayerName, wheelFileName, env);
    assert customLayerName == CustomLayerNameOf(event);
  }

  /** Names the version and the archive, copies the wheel under the site-packages prefix and publishes it. */
  method PublishLayer(moduleName: string, customLayerName: string, wheelFileName: string, env: Environment) returns (run: Run)
    requires '-' in wheelFileName
    ensures run == PublishStep(moduleName, customLayerName, wheelFileName, env)
  {
    var moduleVersion := ModuleVersion(wheelFileName);
    var pythonVersionDot := VersionDot(env.major, env.minor);
    var extendedPythonModulePathName := SitePackagesPrefix(env.major, env.minor);
    var newZipFileName := ZipFileName(moduleName, moduleVersion, env.timestamp);
    var content := RepackageWheel(env.wheelEntries, extendedPythonModulePathName);
    var newLayerName := LayerName(moduleName, moduleVersion, env.major, env.minor, customLayerName);
    var call := PublishRequest(newLayerName, LayerDescription, content, ["python" + pythonVersionDot], "");
    if env.publishError.Some? {
      return Run(Some(newZipFileName), Some(call), Returned(Response(500, Some(ServiceError), PublishFailurePayload(env.publishError.value))));
    }
    run := Run(Some(newZipFileName), Some(call), Returned(Response(200, None, SuccessPayload(newLayerName))));
  }

  // ---------------------------------------------------------------------
  // Properties of an invocation

  /** Without a ModuleName the handler stops at once with 404, writes no zip file and publishes nothing. */
  lemma MissingModuleName(event: map<string, string>, env: Environment)
    requires "ModuleName" !in event
    ensures HandlerSpec(event, env).zipFileName.None?
    ensures HandlerSpec(event, env).publishCall.None?
    ensures HandlerSpec(event, env).outcome == NotFound(MissingModuleNamePayload())
  {
  }

  /** A failed pip run ends in 404: no zip file is written and nothing is published. */
  lemma PipFailure(event: map<string, string>, env: Environment)
    requires "ModuleName" in event && env.pipReturnCode != 0
    ensures HandlerSpec(event, env) ==
      Run(None, None, NotFound(PipFailurePayload(event["ModuleName"], env.pipStderr)))
  {
  }

  /** With no ".whl" entry in the download directory the handler answers 404 and publishes nothing. */
  lemma NoWheelDownloaded(event: map<string, string>, env: Environment)
    requires "ModuleName" in event && env.pipReturnCode == 0
    requires forall i :: 0 <= i < |env.listing| ==> !IsWheelName(env.listing[i])
    ensures HandlerSpec(event, env) ==
      Run(None, None, NotFound(NoWheelPayload(event["ModuleName"])))
  {
    FirstWheelIsFirst(env.listing);
  }

  /**
   * The layer built from a wheel: the zip file named with the wheel's version,
   * one entry per wheel entry under the site-packages prefix (bytes unchanged
   * for distinct names), the single runtime, and the custom name if given.
   */
  lemma PublishStepLayer(moduleName: string, customLayerName: string, wheel: string, env: Environment)
    requires '-' in wheel
    ensures var r := PublishStep(moduleName, customLayerName, wheel, env);
      var c := r.publishCall.value;
      var prefix := SitePackagesPrefix(env.major, env.minor);
      && r.zipFileName == Some(ZipFileName(moduleName, ModuleVersion(wheel), env.timestamp))
      && |c.content| == |env.wheelEntries|
      && (forall i :: 0 <= i < |c.content| ==> c.content[i].name == prefix + "/" + env.wheelEntries[i].name)
      && (DistinctNames(env.wheelEntries) ==> forall i :: 0 <= i < |c.content| ==> c.content[i].data == env.wheelEntries[i].data)
      && c.compatibleRuntimes == ["python" + VersionDot(env.major, env.minor)]
      && (customLayerName != "" ==> c.layerName == customLayerName)
  {
    var prefix := SitePackagesPrefix(env.major, env.minor);
    RerootedNames(env.wheelEntries, prefix);
    if DistinctNames(env.wheelEntries) {
      RerootedBytesIdentical(env.wheelEntries, prefix);
    }
  }

  /**
   * What gets published: the first wheel of the listing, re-rooted entry by
   * entry under the runtime's site-packages directory, for that runtime only,
   * under the custom layer name when one was given.
   */
  lemma PublishedLayer(event: map<string, string>, env: Environment)
    requires HandlerSpec(event, env).publishCall.Some?
    ensures var c := HandlerSpec(event, env).publishCall.value;
      var wheel := FirstWheel(env.listing).value;
      var prefix := SitePackagesPrefix(env.major, env.minor);
      && (exists i :: 0 <= i < |env.listing| && env.listing[i] == wheel && IsWheelName(wheel) &&
           forall j :: 0 <= j < i ==> !IsWheelName(env.listing[j]))
      && '-' in wheel
      && HandlerSpec(event, env).zipFileName == Some(ZipFileName(event["ModuleName"], ModuleVersion(wheel), env.timestamp))
      && |c.content| == |env.wheelEntries|
      && (forall i :: 0 <= i < |c.content| ==> c.content[i].name == prefix + "/" + env.wheelEntries[i].name)
      && (DistinctNames(env.wheelEntries) ==> forall i :: 0 <= i < |c.content| ==> c.content[i].data == env.wheelEntries[i].data)
      && c.compatibleRuntimes == ["python" + VersionDot(env.major, env.minor)]
      && (CustomLayerNameOf(event) != "" ==> c.layerName == CustomLayerNameOf(event))
  {
    assert ReachesPublish(event, env);
    var wheel := FirstWheel(env.listing).value;
    assert HandlerSpec(event, env) == PublishStep(event["ModuleName"], CustomLayerNameOf(event), wheel, env);
    PublishStepLayer(event["ModuleName"], CustomLayerNameOf(event), wheel, env);
    FirstWheelIsFirst(env.listing);
  }

  /** A failed publish call ends in 500 ServiceException carrying the exception's text. */
  lemma PublishFailure(event: map<string, string>, env: Environment)
    requires ReachesPublish(event, env) && env.publishError.Some?
    ensures HandlerSpec(event, env).outcome == Returned(Response(500, Some(ServiceError), PublishFailurePayload(env.publishError.value)))
  {
  }

  /** On success the payload ends with the name of the layer that was published. */
  lemma SuccessNamesLayer(event: map<string, string>, env: Environment)
    requires ReachesPublish(event, env) && env.publishError.None?
    ensures var r := HandlerSpec(event, env);
      r.outcome.Returned? && r.outcome.response.statusCode == 200 &&
      EndsWith(r.outcome.response.payload, r.publishCall.value.layerName)
  {
    var r := HandlerSpec(event, env);
    var name := r.publishCall.value.layerName;
    var payload := r.outcome.response.payload;
    assert payload == SuccessPayload(name);
    assert payload[|payload| - |name|..] == name;
  }
}

=== FILE: layout.dfy ===
/**
 * The layer layout: the site-packages prefix the layer's archive is rooted
 * at, and the loop that copies every entry of the wheel into a new archive
 * under that prefix.
 */
module Layout {
  import opened Wrappers
  import opened Text

  newtype byte = x: int | 0 <= x < 256

  /** An archive entry: its path inside the archive and its uncompressed bytes. */
  datatype Entry = Entry(name: string, data: seq<byte>)

  // ---------------------------------------------------------------------
  // The site-packages prefix

  const PrefixHead: string := "/python/lib/python"
  const PrefixTail: string := "/site-packages"

  /** The runtime's version as "<major>.<minor>". */
  function VersionDot(major: nat, minor: nat): string {
    NatToString(major) + "." + NatToString(minor)
  }

  /** The runtime's version as "<major><minor>": the dotted form with its dot removed. */
  function VersionNoDot(major: nat, minor: nat): (r: string)
    ensures AllDigits(r)
    ensures r == RemoveChar(VersionDot(major, minor), '.')
  {
    var a, b := NatToString(major), NatToString(minor);
    DigitsHaveNoDot(a);
    DigitsHaveNoDot(b);
    RemoveDotBetween(a, b);
    a + b
  }

  /**
   * Where the layer's contents go once the layer is extracted under /opt:
   * "/python/lib/python<major>.<minor>/site-packages".
   */
  function SitePackagesPrefix(major: nat, minor: nat): string {
    PrefixHead + VersionDot(major, minor) + PrefixTail
  }

  /** Reads the runtime version back out of a site-packages prefix. */
  function ParseSitePackagesPrefix(p: string): Option<(nat, nat)> {
    if |p| < |PrefixHead| + |PrefixTail| || p[..|PrefixHead|] != PrefixHead || p[|p| - |PrefixTail|..] != PrefixTail then
      None
    else
      var parts := Split(p[|PrefixHead|..|p| - |PrefixTail|], '.');
      if |parts| == 2 && parts[0] != [] && parts[1] != [] && AllDigits(parts[0]) && AllDigits(parts[1]) then
        Some((ParseDigits(parts[0]), ParseDigits(parts[1])))
      else
        None
  }

  /** The prefix names its runtime version unambiguously: parsing it gives the version back. */
  lemma SitePackagesPrefixRoundTrip(major: nat, minor: nat)
    ensures ParseSitePackagesPrefix(SitePackagesPrefix(major, minor)) == Some((major, minor))
  {
    var p := SitePackagesPrefix(major, minor);
    var v := VersionDot(major, minor);
    assert p[..|PrefixHead|] == PrefixHead;
    assert p[|p| - |PrefixTail|..] == PrefixTail;
    assert p[|PrefixHead|..|p| - |PrefixTail|] == v;
    var a, b := NatToString(major), NatToString(minor);
    DigitsHaveNoDot(a);
    DigitsHaveNoDot(b);
    assert [a, b][1..] == [b];
    assert Join([a, b], '.') == v;
    SplitJoin([a, b], '.');
    ParseNatToString(major);
    ParseNatToString(minor);
  }

  /** Two runtime versions never share a site-packages prefix. */
  lemma SitePackagesPrefixInjective(major: nat, minor: nat, major': nat, minor': nat)
    requires SitePackagesPrefix(major, minor) == SitePackagesPrefix(major', minor')
    ensures major == major' && minor == minor'
  {
    SitePackagesPrefixRoundTrip(major, minor);
    SitePackagesPrefixRoundTrip(major', minor');
  }

  // ---------------------------------------------------------------------
  // Reading an entry back by name

  predicate HasEntry(archive: seq<Entry>, name: string) {
    exists j :: 0 <= j < |archive| && archive[j].name == name
  }

  /** All entry names differ. */
  predicate DistinctNames(archive: seq<Entry>) {
    forall i, j :: 0 <= i < j < |archive| ==> archive[i].name != archive[j].name
  }

  /** The last of the first `k` entries that carries `name`, if any. */
  function LastIndexOf(archive: seq<Entry>, name: string, k: nat): (r: Option<nat>)
    requires k <= |archive|
    ensures r.None? ==> forall j :: 0 <= j < k ==> archive[j].name != name
    ensures r.Some? ==> (r.value < k && archive[r.value].name == name &&
                         forall j :: r.value < j < k ==> archive[j].name != name)
  {
    if k == 0 then None
    else if archive[k - 1].name == name then Some(k - 1)
    else LastIndexOf(archive, name, k - 1)
  }

  /**
   * Reading a member of an open archive by name. An archive indexes its
   * members by name, later members replacing earlier ones of the same name,
   * so the bytes returned are those of the LAST entry carrying the name.
   */
  function ReadByName(archive: seq<Entry>, name: string): (data: seq<byte>)
    requires HasEntry(archive, name)
    ensures exists k :: (0 <= k < |archive| && archive[k].name == name && data == archive[k].data &&
                         forall j :: k < j < |archive| ==> archive[j].name != name)
  {
    var k := LastIndexOf(archive, name, |archive|);
    archive[k.value].data
  }

  // ---------------------------------------------------------------------
  // The re-rooting transform

  /**
   * The archive the repackaging loop writes: one entry per input entry, in
   * input order, named prefix + "/" + the original name, holding what reading
   * the original name returns.
   */
  function Rerooted(archive: seq<Entry>, prefix: string): seq<Entry> {
    seq(|archive|, i requires 0 <= i < |archive| =>
      Entry(prefix + "/" + archive[i].name, ReadByName(archive, archive[i].name)))
  }

  /** The partner of Rerooted: strips prefix + "/" off every name, failing on a name outside it. */
  function Unrooted(entries: seq<Entry>, prefix: string): Option<seq<Entry>> {
    if entries == [] then Some([])
    else
      var head := prefix + "/";
      var e := entries[0];
      if |head| <= |e.name| && e.name[..|head|] == head then
        match Unrooted(entries[1..], prefix)
        case None => None
        case Some(rest) => Some([Entry(e.name[|head|..], e.data)] + rest)
      else
        None
  }

  /** One output entry per input entry, in the same order, each named under the prefix. */
  lemma RerootedNames(archive: seq<Entry>, prefix: string)
    ensures |Rerooted(archive, prefix)| == |archive|
    ensures forall i :: 0 <= i < |archive| ==> Rerooted(archive, prefix)[i].name == prefix + "/" + archive[i].name
  {
  }

  /**
   * The bytes of each output entry are those of the last input entry carrying
   * the same name (at or after its own position).
   */
  lemma RerootedBytes(archive: seq<Entry>, prefix: string, i: nat)
    requires i < |archive|
    ensures exists k :: (i <= k < |archive| && archive[k].name == archive[i].name &&
                         Rerooted(archive, prefix)[i].data == archive[k].data &&
                         forall j :: k < j < |archive| ==> archive[j].name != archive[i].name)
  {
    var d := Rerooted(archive, prefix)[i].data;
    var k :| 0 <= k < |archive| && archive[k].name == archive[i].name && d == archive[k].data &&
      forall j :: k < j < |archive| ==> archive[j].name != archive[i].name;
    assert i <= k;
  }

  /** With distinct names, output entry i is input entry i, byte for byte, under the prefixed name. */
  lemma RerootedEntryAt(archive: seq<Entry>, prefix: string, i: nat)
    requires DistinctNames(archive)
    requires i < |archive|
    ensures Rerooted(archive, prefix)[i] == Entry(prefix + "/" + archive[i].name, archive[i].data)
  {
    var d := Rerooted(archive, prefix)[i].data;
    var k :| 0 <= k < |archive| && archive[k].name == archive[i].name && d == archive[k].data &&
      forall j :: k < j < |archive| ==> archive[j].name != archive[i].name;
    assert k == i;
  }

  /** When the wheel's names are distinct (as in any well-formed wheel), every entry's bytes are copied unchanged. */
  lemma RerootedBytesIdentical(archive: seq<Entry>, prefix: string)
    requires DistinctNames(archive)
    ensures forall i :: 0 <= i < |archive| ==> Rerooted(archive, prefix)[i] == Entry(prefix + "/" + archive[i].name, archive[i].data)
  {
    forall i | 0 <= i < |archive|
      ensures Rerooted(archive, prefix)[i] == Entry(prefix + "/" + archive[i].name, archive[i].data)
    {
      RerootedEntryAt(archive, prefix, i);
    }
  }

  /** Re-rooting neither merges nor splits names: two outputs share a name exactly when their inputs do. */
  lemma RerootedNamesInjective(archive: seq<Entry>, prefix: string)
    ensures forall i, j :: 0 <= i < |archive| && 0 <= j < |archive| ==>
      (Rerooted(archive, prefix)[i].name == Rerooted(archive, prefix)[j].name <==> archive[i].name == archive[j].name)
    ensures DistinctNames(archive) ==> DistinctNames(Rerooted(archive, prefix))
  {
    var r := Rerooted(archive, prefix);
    var head := prefix + "/";
    forall i, j | 0 <= i < |archive| && 0 <= j < |archive|
      ensures r[i].name == r[j].name <==> archive[i].name == archive[j].name
    {
      if r[i].name == r[j].name {
        assert archive[i].name == r[i].name[|head|..];
        assert archive[j].name == r[j].name[|head|..];
      }
    }
  }

  /** Stripping the prefix from the entries from index k on gives back the input from k on. */
  lemma {:induction false} UnrootedFrom(archive: seq<Entry>, prefix: string, k: nat)
    requires DistinctNames(archive)
    requires k <= |archive|
    ensures Unrooted(Rerooted(archive, prefix)[k..], prefix) == Some(archive[k..])
    decreases |archive| - k
  {
    var r := Rerooted(archive, prefix);
    if k < |archive| {
      UnrootedFrom(archive, prefix, k + 1);
      RerootedEntryAt(archive, prefix, k);
      var head := prefix + "/";
      assert r[k..][0] == Entry(head + archive[k].name, archive[k].data);
      assert (head + archive[k].name)[|head|..] == archive[k].name;
      assert r[k..][1..] == r[k + 1..];
      assert archive[k..] == [archive[k]] + archive[k + 1..];
    } else {
      assert r[k..] == [];
      assert archive[k..] == [];
    }
  }

  /** Round trip: the layer archive with the prefix stripped is the wheel again, entry for entry. */
  lemma RerootedRoundTrip(archive: seq<Entry>, prefix: string)
    requires DistinctNames(archive)
    ensures Unrooted(Rerooted(archive, prefix), prefix) == Some(archive)
  {
    UnrootedFrom(archive, prefix, 0);
    assert Rerooted(archive, prefix)[0..] == Rerooted(archive, prefix);
    assert archive[0..] == archive;
  }

  /** With a repeated name, every copy carries the bytes of the last one. */
  lemma RepeatedNameTakesLastBytes()
    ensures Rerooted([Entry("a", [1]), Entry("a", [2])], "p") == [Entry("p/a", [2]), Entry("p/a", [2])]
  {
    var archive := [Entry("a", [1]), Entry("a", [2])];
    assert LastIndexOf(archive, "a", 2) == Some(1);
    assert ReadByName(archive, "a") == [2];
    assert "p" + "/" + "a" == "p/a";
  }

  // ---------------------------------------------------------------------
  // The output archive and the copying loop

  /** The archive being written: the entries written so far, in order. */
  class OutArchive {
    var entries: seq<Entry>

    constructor ()
      ensures entries == []
    {
      entries := [];
    }

    /** Appends one entry under the given name. */
    method WriteStr(name: string, data: seq<byte>)
      modifies this
      ensures entries == old(entries) + [Entry(name, data)]
    {
      entries := entries + [Entry(name, data)];
    }
  }

  /** Copies the wheel's entries, one at a time and in order, into `out` under the prefix. */
  method Repackage(archive: seq<Entry>, prefix: string, out: OutArchive)
    modifies out
    ensures out.entries == old(out.entries) + Rerooted(archive, prefix)
  {
    var i := 0;
    while i < |archive|
      invariant 0 <= i <= |archive|
      invariant out.entries == old(out.entries) + Rerooted(archive, prefix)[..i]
    {
      var currentFileName := archive[i].name;
      var dataBuffer := ReadByName(archive, currentFileName);
      var newFileName := prefix + "/" + currentFileName;
      out.WriteStr(newFileName, dataBuffer);
      assert Rerooted(archive, prefix)[..i + 1] == Rerooted(archive, prefix)[..i] + [Entry(newFileName, dataBuffer)];
      i := i + 1;
    }
    assert Rerooted(archive, prefix)[..i] == Rerooted(archive, prefix);
  }

  /** Opens a new archive, copies the wheel into it and returns what was written. */
  method RepackageWheel(archive: seq<Entry>, prefix: string) returns (entries: seq<Entry>)
    ensures entries == Rerooted(archive, prefix)
  {
    var out := new OutArchive();
    Repackage(archive, prefix, out);
    entries := out.entries;
  }
}

=== FILE: naming.dfy ===
/** The names the handler generates: the zip file it writes and the layer it publishes. */
module Naming {
  import opened Text
  import opened Layout

  /** "<module>_layer_ver_<version>_<timestamp>.zip" */
  function ZipFileName(moduleName: string, version: string, timestamp: string): string {
    moduleName + "_layer_ver_" + version + "_" + timestamp + ".zip"
  }

  /**
   * For one module and one timestamp, the zip name pins down the version:
   * two different versions never share a zip file name.
   */
  lemma ZipFileNameDeterminesVersion(moduleName: string, version: string, version': string, timestamp: string)
    requires ZipFileName(moduleName, version, timestamp) == ZipFileName(moduleName, version', timestamp)
    ensures version == version'
  {
    var z := ZipFileName(moduleName, version, timestamp);
    var head := moduleName + "_layer_ver_";
    var tail := "_" + timestamp + ".zip";
    assert z == head + version + tail;
    assert z == head + version' + tail;
    assert |version| == |version'|;
    assert version == z[|head|..|head| + |version|];
    assert version' == z[|head|..|head| + |version'|];
  }

  /**
   * The layer name: the custom name when one was given (non-empty), otherwise
   * "<module>_<version without dots>_py<major><minor>".
   */
  function LayerName(moduleName: string, version: string, major: nat, minor: nat, customLayerName: string): (r: string)
    ensures customLayerName != "" ==> r == customLayerName
    ensures customLayerName == "" ==> |r| > |moduleName| && r[..|moduleName| + 1] == moduleName + "_"
    ensures customLayerName == "" ==> '.' !in r[|moduleName|..]
    ensures customLayerName == "" ==> EndsWith(r, "_py" + VersionNoDot(major, minor))
    ensures customLayerName == "" ==>
      |r| >= |moduleName| + 1 + |"_py" + VersionNoDot(major, minor)| &&
      r[|moduleName| + 1 .. |r| - |"_py" + VersionNoDot(major, minor)|] == RemoveChar(version, '.')
  {
    if customLayerName == "" then
      var dotless := RemoveChar(version, '.');
      var runtime := "_py" + VersionNoDot(major, minor);
      var r := moduleName + "_" + dotless + runtime;
      assert r[|moduleName|..] == "_" + dotless + runtime;
      DigitsHaveNoDot(VersionNoDot(major, minor));
      assert '.' !in runtime;
      assert r[|r| - |runtime|..] == runtime;
      r
    else
      customLayerName
  }

  /**
   * For one module and runtime, two versions give the same default layer name
   * exactly when they agree once their dots are removed ("1.10" and "11.0" do).
   */
  lemma DefaultLayerNameDeterminesDotlessVersion(moduleName: string, version: string, version': string, major: nat, minor: nat)
    ensures LayerName(moduleName, version, major, minor, "") == LayerName(moduleName, version', major, minor, "") <==>
      RemoveChar(version, '.') == RemoveChar(version', '.')
  {
    var n1 := LayerName(moduleName, version, major, minor, "");
    var n2 := LayerName(moduleName, version', major, minor, "");
    var k := |"_py" + VersionNoDot(major, minor)|;
    if n1 == n2 {
      assert RemoveChar(version, '.') == n1[|moduleName| + 1 .. |n1| - k];
    }
  }

  /** The two versions "1.10" and "11.0" share a default layer name. */
  lemma DottedVersionsCollide(moduleName: string, major: nat, minor: nat)
    ensures LayerName(moduleName, "1.10", major, minor, "") == LayerName(moduleName, "11.0", major, minor, "")
  {
    DefaultLayerNameDeterminesDotlessVersion(moduleName, "1.10", "11.0", major, minor);
    assert RemoveChar("1.10", '.') == "110";
    assert RemoveChar("11.0", '.') == "110";
  }
}

=== FILE: text.dfy ===
/**
 * The handful of Python string operations the layer handler relies on:
 * `str.lower`, `str.endswith`, `str.split(sep)`, `str.replace(c, "")` and
 * `str(n)` for a non-negative integer, each with a partner (an inverse or an
 * independent characterisation) and the lemmas that connect the two.
 */
module Text {

  /** `str.lower()` on one character, for the ASCII range. */
  function LowerChar(c: char): char {
    if 'A' <= c <= 'Z' then (c as int + 32) as char else c
  }

  /** `s.lower()`: every character lowered, the length unchanged. */
  function Lower(s: string): string {
    seq(|s|, i requires 0 <= i < |s| => LowerChar(s[i]))
  }

  /** `s.endswith(suffix)`. */
  predicate EndsWith(s: string, suffix: string) {
    |suffix| <= |s| && s[|s| - |suffix|..] == suffix
  }

  // ---------------------------------------------------------------------
  // str.split(sep) and its inverse, sep.join(fields)

  /** `sep.join(fields)` for a non-empty list of fields. */
  function Join(fields: seq<string>, sep: char): string
    requires |fields| >= 1
  {
    if |fields| == 1 then fields[0] else fields[0] + [sep] + Join(fields[1..], sep)
  }

  /**
   * `s.split(sep)`: the maximal separator-free pieces between separators,
   * empty pieces included, so there is always one field more than there
   * are separators.
   */
  function Split(s: string, sep: char): (r: seq<string>)
    ensures |r| >= 1
    ensures |r| >= 2 <==> sep in s
    ensures forall i :: 0 <= i < |r| ==> sep !in r[i]
    ensures Join(r, sep) == s
  {
    if s == [] then [""]
    else
      var rest := Split(s[1..], sep);
      if s[0] == sep then
        assert s == [sep] + s[1..];
        [""] + rest
      else
        var r := [[s[0]] + rest[0]] + rest[1..];
        assert s == [s[0]] + s[1..];
        if |rest| == 1 then r
        else
          assert Join(rest, sep) == rest[0] + [sep] + Join(rest[1..], sep);
          assert r[1..] == rest[1..];
          r
  }

  /** Splitting a separator-free head off: `(a + sep + b).split(sep) == [a] + b.split(sep)`. */
  lemma {:induction false} SplitCons(a: string, b: string, sep: char)
    requires sep !in a
    ensures Split(a + [sep] + b, sep) == [a] + Split(b, sep)
  {
    if a == [] {
      assert a + [sep] + b == [sep] + b;
      assert ([sep] + b)[1..] == b;
    } else {
      var s := a + [sep] + b;
      assert s[0] == a[0];
      assert s[1..] == a[1..] + [sep] + b;
      SplitCons(a[1..], b, sep);
      assert [a[0]] + a[1..] == a;
    }
  }

  /** Splitting undoes joining, for fields that do not contain the separator. */
  lemma {:induction false} SplitJoin(fields: seq<string>, sep: char)
    requires |fields| >= 1
    requires forall i :: 0 <= i < |fields| ==> sep !in fields[i]
    ensures Split(Join(fields, sep), sep) == fields
  {
    if |fields| == 1 {
      SplitNoSep(fields[0], sep);
    } else {
      SplitJoin(fields[1..], sep);
      SplitCons(fields[0], Join(fields[1..], sep), sep);
      assert [fields[0]] + fields[1..] == fields;
    }
  }

  /** A string without the separator splits into itself alone. */
  lemma {:induction false} SplitNoSep(s: string, sep: char)
    requires sep !in s
    ensures Split(s, sep) == [s]
  {
    var r := Split(s, sep);
    assert |r| == 1;
  }

  // ---------------------------------------------------------------------
  // str.replace(c, "")

  /** `s.replace(c, "")`: every occurrence of `c` removed, the rest kept in order. */
  function RemoveChar(s: string, c: char): (r: string)
    ensures c !in r
    ensures |r| <= |s|
    ensures c !in s ==> r == s
  {
    if s == [] then []
    else (if s[0] == c then [] else [s[0]]) + RemoveChar(s[1..], c)
  }

  /** Removal distributes over concatenation, so it acts character by character. */
  lemma {:induction false} RemoveCharAppend(a: string, b: string, c: char)
    ensures RemoveChar(a + b, c) == RemoveChar(a, c) + RemoveChar(b, c)
  {
    if a == [] {
      assert a + b == b;
    } else {
      assert (a + b)[0] == a[0];
      assert (a + b)[1..] == a[1..] + b;
      RemoveCharAppend(a[1..], b, c);
    }
  }

  /** Removing the dot that joins two dot-free strings concatenates them. */
  lemma RemoveDotBetween(a: string, b: string)
    requires '.' !in a && '.' !in b
    ensures RemoveChar(a + "." + b, '.') == a + b
  {
    var left := a + ".";
    RemoveCharAppend(left, b, '.');
    RemoveCharAppend(a, ".", '.');
    RemoveSoleDot();
    assert RemoveChar(left, '.') == a;
  }

  lemma RemoveSoleDot()
    ensures RemoveChar(".", '.') == []
  {
    var dot := ".";
    assert dot[1..] == [];
  }

  /** Every character other than `c` survives removal as often as it occurred. */
  lemma {:induction false} RemoveCharKeepsOthers(s: string, c: char, x: char)
    requires x != c
    ensures multiset(RemoveChar(s, c))[x] == multiset(s)[x]
  {
    if s != [] {
      RemoveCharKeepsOthers(s[1..], c, x);
      assert s == [s[0]] + s[1..];
      assert multiset(s) == multiset([s[0]]) + multiset(s[1..]);
    }
  }

  // ---------------------------------------------------------------------
  // str(n) for n >= 0, and its inverse int(s)

  predicate IsDigit(c: char) {
    '0' <= c <= '9'
  }

  predicate AllDigits(s: string) {
    forall i :: 0 <= i < |s| ==> IsDigit(s[i])
  }

  /** Decimal digits include no dot. */
  lemma DigitsHaveNoDot(s: string)
    requires AllDigits(s)
    ensures '.' !in s
  {
    assert forall i :: 0 <= i < |s| ==> IsDigit(s[i]);
  }

  function DigitChar(d: nat): (c: char)
    requires d < 10
    ensures IsDigit(c)
  {
    (d + '0' as int) as char
  }

  function DigitValue(c: char): nat
    requires IsDigit(c)
  {
    c as int - '0' as int
  }

  /** `str(n)`: the decimal digits of `n`, without a leading zero unless `n` is zero. */
  function NatToString(n: nat): (r: string)
    ensures |r| >= 1
    ensures AllDigits(r)
    ensures r[0] == '0' ==> n == 0
    ensures |r| > 1 ==> r[0] != '0'
  {
    if n < 10 then [DigitChar(n)] else NatToString(n / 10) + [DigitChar(n % 10)]
  }

  /** `int(s)` for a string of decimal digits. */
  function ParseDigits(s: string): nat
    requires AllDigits(s)
  {
    if s == [] then 0 else 10 * ParseDigits(s[..|s| - 1]) + DigitValue(s[|s| - 1])
  }

  /** Parsing the decimal rendering gives the number back. */
  lemma {:induction false} ParseNatToString(n: nat)
    ensures ParseDigits(NatToString(n)) == n
  {
    var s := NatToString(n);
    if n >= 10 {
      ParseNatToString(n / 10);
      assert s[..|s| - 1] == NatToString(n / 10);
    }
  }

  /** Distinct numbers render as distinct strings. */
  lemma NatToStringInjective(a: nat, b: nat)
    requires NatToString(a) == NatToString(b)
    ensures a == b
  {
    ParseNatToString(a);
    ParseNatToString(b);
  }
}

=== FILE: wheel.dfy ===
/**
 * Picking the downloaded wheel out of the download directory and reading the
 * module version out of its file name.
 */
module Wheel {
  import opened Wrappers
  import opened Text

  /** A directory entry is taken for a wheel when its lowercased name ends in ".whl". */
  predicate IsWheelName(file: string) {
    EndsWith(Lower(file), ".whl")
  }

  /** The ".whl" test, stated without lowering: the last four characters, case-insensitively. */
  lemma WheelNameSuffix(file: string)
    ensures IsWheelName(file) <==>
      |file| >= 4 &&
      file[|file| - 4] == '.' &&
      file[|file| - 3] in {'w', 'W'} &&
      file[|file| - 2] in {'h', 'H'} &&
      file[|file| - 1] in {'l', 'L'}
  {
    var low := Lower(file);
    if |file| >= 4 {
      var n := |file|;
      assert low[n - 4..] == [low[n - 4], low[n - 3], low[n - 2], low[n - 1]];
      assert ".whl" == ['.', 'w', 'h', 'l'];
    }
  }

  /** The first wheel of a directory listing, in listing order. */
  function FirstWheel(listing: seq<string>): Option<string> {
    if listing == [] then None
    else if IsWheelName(listing[0]) then Some(listing[0])
    else FirstWheel(listing[1..])
  }

  /** FirstWheel finds a wheel exactly when there is one, and then the earliest. */
  lemma {:induction false} FirstWheelIsFirst(listing: seq<string>)
    ensures FirstWheel(listing).None? <==> forall i :: 0 <= i < |listing| ==> !IsWheelName(listing[i])
    ensures FirstWheel(listing).Some? ==>
      exists i :: 0 <= i < |listing| && listing[i] == FirstWheel(listing).value && IsWheelName(listing[i]) &&
        forall j :: 0 <= j < i ==> !IsWheelName(listing[j])
  {
    if listing != [] && !IsWheelName(listing[0]) {
      FirstWheelIsFirst(listing[1..]);
      if FirstWheel(listing).Some? {
        var i :| 0 <= i < |listing| - 1 && listing[1..][i] == FirstWheel(listing).value && IsWheelName(listing[1..][i]) &&
          forall j :: 0 <= j < i ==> !IsWheelName(listing[1..][j]);
        assert listing[i + 1] == listing[1..][i];
        assert forall j :: 0 <= j < i + 1 ==> !IsWheelName(listing[j]) by {
          forall j | 0 <= j < i + 1 ensures !IsWheelName(listing[j]) {
            if j > 0 { assert listing[j] == listing[1..][j - 1]; }
          }
        }
      } else {
        forall i | 0 <= i < |listing| ensures !IsWheelName(listing[i]) {
          if i > 0 { assert listing[i] == listing[1..][i - 1]; }
        }
      }
    }
  }

  /**
   * Scans the listing in order and stops at the first wheel; the empty name
   * means that no entry qualified (no wheel name is empty).
   */
  method PickWheel(listing: seq<string>) returns (wheelFileName: string)
    ensures wheelFileName == "" <==> forall i :: 0 <= i < |listing| ==> !IsWheelName(listing[i])
    ensures wheelFileName != "" ==>
      exists i :: 0 <= i < |listing| && listing[i] == wheelFileName && IsWheelName(wheelFileName) &&
        forall j :: 0 <= j < i ==> !IsWheelName(listing[j])
    ensures FirstWheel(listing) == if wheelFileName == "" then None else Some(wheelFileName)
  {
    wheelFileName := "";
    var i := 0;
    while i < |listing|
      invariant 0 <= i <= |listing|
      invariant wheelFileName == ""
      invariant forall j :: 0 <= j < i ==> !IsWheelName(listing[j])
      invariant FirstWheel(listing) == FirstWheel(listing[i..])
    {
      if IsWheelName(listing[i]) {
        wheelFileName := listing[i];
        break;
      }
      assert listing[i..][1..] == listing[i + 1..];
      i := i + 1;
    }
    FirstWheelIsFirst(listing);
    if wheelFileName == "" {
      assert listing[i..] == [];
    } else {
      assert listing[i..][0] == listing[i];
      assert |wheelFileName| >= 4;
    }
  }

  /**
   * The module version: the second hyphen-separated field of the wheel file
   * name. The file name must contain a hyphen (two fields at least).
   */
  function ModuleVersion(wheelFileName: string): (version: string)
    requires '-' in wheelFileName
    ensures '-' !in version
  {
    Split(wheelFileName, '-')[1]
  }

  /**
   * A wheel file name built after the file name convention of PEP 427:
   * {distribution}-{version}(-{build tag})?-{python tag}-{abi tag}-{platform tag}.whl
   */
  function WheelFileName(distribution: string, version: string, build: Option<string>,
                         pythonTag: string, abiTag: string, platformTag: string): string
  {
    distribution + "-" + version + (if build.Some? then "-" + build.value else "") +
      "-" + pythonTag + "-" + abiTag + "-" + platformTag + ".whl"
  }

  /** The fields of a PEP 427 name, as `split('-')` sees them. */
  function WheelFields(distribution: string, version: string, build: Option<string>,
                       pythonTag: string, abiTag: string, platformTag: string): seq<string>
  {
    [distribution, version] + (if build.Some? then [build.value] else []) +
      [pythonTag, abiTag, platformTag + ".whl"]
  }

  /**
   * For a conventionally named wheel whose components carry no hyphen (PEP 427
   * escapes them to underscores), the handler reads back exactly the version,
   * and the name passes the ".whl" test.
   */
  lemma {:induction false} VersionOfWheelFileName(distribution: string, version: string, build: Option<string>,
                                                  pythonTag: string, abiTag: string, platformTag: string)
    requires '-' !in distribution && '-' !in version && '-' !in pythonTag && '-' !in abiTag && '-' !in platformTag
    requires build.Some? ==> '-' !in build.value
    ensures IsWheelName(WheelFileName(distribution, version, build, pythonTag, abiTag, platformTag))
    ensures '-' in WheelFileName(distribution, version, build, pythonTag, abiTag, platformTag)
    ensures ModuleVersion(WheelFileName(distribution, version, build, pythonTag, abiTag, platformTag)) == version
  {
    var name := WheelFileName(distribution, version, build, pythonTag, abiTag, platformTag);
    var fields := WheelFields(distribution, version, build, pythonTag, abiTag, platformTag);
    var plat := platformTag + ".whl";
    var tail := [pythonTag, abiTag, plat];
    assert '-' !in ".whl";
    assert '-' !in plat;
    var tailText := pythonTag + "-" + abiTag + "-" + plat;
    assert Join(tail, '-') == tailText by {
      assert tail[1..] == [abiTag, plat];
      assert tail[1..][1..] == [plat];
      assert Join(tail[1..], '-') == abiTag + "-" + plat;
    }
    if build.Some? {
      var b := build.value;
      assert fields == [distribution, version, b] + tail;
      assert fields[1..] == [version, b] + tail;
      assert fields[1..][1..] == [b] + tail;
      assert fields[1..][1..][1..] == tail;
      assert Join(fields[1..][1..], '-') == b + "-" + tailText;
      assert Join(fields[1..], '-') == version + "-" + (b + "-" + tailText);
      assert name == distribution + "-" + (version + "-" + (b + "-" + tailText));
    } else {
      assert fields == [distribution, version] + tail;
      assert fields[1..] == [version] + tail;
      assert fields[1..][1..] == tail;
      assert Join(fields[1..], '-') == version + "-" + tailText;
      assert name == distribution + "-" + (version + "-" + tailText);
    }
    assert Join(fields, '-') == name;
    SplitJoin(fields, '-');
    assert name[|name| - 4..] == ".whl";
    WheelNameSuffix(name);
  }
}

=== FILE: wrappers.dfy ===
/** The optional-value datatype used throughout the model. */
module Wrappers {
  datatype Option<+T> = None | Some(value: T)
}
